=== FILE: README.md ===
# Vehicle tracker playback engine, in Dafny

A model of the vehicle tracker's simulation core: the playback engine of the
`useVehicleSimulation` hook, the geometry and time helpers it uses, the route
generator, and the page handlers that pick locations and install a route.

The engine is a pure state machine. Its state (`Simulation.Sim`) holds the
segment index, a step counter for the progress along the segment, the playing
flag, the displayed speed, the elapsed-time counter, the playback speed, the
throttle baseline `lastUpdate` and the traveled path. One animation frame is
`Simulation.Tick(cfg, state, route, timestamp, distance)`. The controls `Play`,
`Pause`, `Reset` and `SetPlaybackSpeed` are state transformers.
`CurrentPosition` and `Percent` are the values the hook derives on every
render. The trail `TraveledPath` is state that the hook's effect writes, and
`Simulation.Rebuild` models that write.

Modelling choices:

- `animationProgress` is an integer step counter `step`, with progress
  `step / animationSteps`. A frame wraps when `step + 1 >= animationSteps`,
  which is the exact-arithmetic reading of `newProgress >= 1`.
- Coordinates are `real`.
- A route point's ISO-8601 timestamp is the integer number of milliseconds it
  denotes. Frame timestamps are real milliseconds.
- The haversine distance is a parameter `distance: (RoutePoint, RoutePoint) -> real`.
  The route generator's `sin` bend is a parameter `curve: real -> real`.
  Lemmas that need the bend's ±0.002 bound and its zero at progress 0 say so
  through `RouteGenerator.BoundedCurve`.
- The clock reading `new Date()` of the generator is a parameter `startTime`.
- The traveled-path effect is applied after every accepted frame
  (`Simulation.Accept`). The effect depends on `updateTraveledPath`, whose
  dependency `currentPosition` is a new object on every render while a segment
  follows the current point. So while a segment follows, the effect re-runs
  after every render that an accepted frame causes, even when a frame leaves
  index and progress unchanged.

Behaviours of the code a reader might not expect; the model follows the code:

- A finished run leaves the index at `length-2` with progress 0. It never
  reaches the last point, so the progress percentage never reaches 100. The
  final frame even lowers the percentage, from just under 100 to
  `(length-2)/(length-1)·100`.
- The final wrap counts one more unit of elapsed time, so a run over `N` points
  counts `N-1`.
- `play()` after a natural finish does not restart from the first point. Its
  restart test `currentIndex >= length-1` is false there, so the last segment
  is replayed.
- A one-point route divides by zero in the progress percentage (`Percent`
  gives `None`). Only the empty route gives 0.
- The hook's `setPlaybackSpeed` stores any value. Only the slider restricts it
  to 0.5–4 in steps of 0.5. `Tick` assumes a slider value.

## Model

| member | source | states |
|---|---|---|
| Decimal.Show | src/lib/vehicle-utils.ts:57 | `toString` of a whole number is a digit string with no leading zero except for 0 itself; it has one digit exactly below 10 and at most two exactly below 100 |
| Decimal.ParseShow | src/lib/vehicle-utils.ts:57 | reading the decimal numeral of `n` back gives `n` |
| Decimal.PadStart | src/lib/vehicle-utils.ts:57 | `padStart` never truncates; it reaches the width with fill characters in front and keeps the original as a suffix |
| Decimal.ParsePadded | src/lib/vehicle-utils.ts:57 | a zero-padded numeral is still a numeral of the same value |
| VehicleUtils.Interpolate | src/lib/vehicle-utils.ts:60-69 | the interpolated position is the weighted mean `(1-t)·p1 + t·p2` on each axis |
| VehicleUtils.InterpolateEnds | src/lib/vehicle-utils.ts:65-68 | progress 0 gives exactly p1's coordinates and progress 1 exactly p2's |
| VehicleUtils.InterpolateBetween | src/lib/vehicle-utils.ts:65-68 | for progress in [0,1] each coordinate lies between the endpoints' coordinates |
| VehicleUtils.RoundTenth | src/lib/vehicle-utils.ts:40 | `Math.round(x·10)/10` is within 0.05 of `x` and is a whole number of tenths |
| VehicleUtils.CalculateSpeed | src/lib/vehicle-utils.ts:15-41 | equal timestamps give 0 whatever the distance; otherwise the result is within 0.05 of distance/time·3.6 km/h |
| VehicleUtils.Direction | src/lib/vehicle-utils.ts:48-50 | 'N' exactly for latitudes ≥ 0 and 'S' below; 'E' exactly for longitudes ≥ 0 and 'W' below |
| VehicleUtils.FormatCoordinate | src/lib/vehicle-utils.ts:47-52 | the printed magnitude is never negative and the letter is N/E for a non-negative coordinate and S/W for a negative one (`Direction`) |
| VehicleUtils.FormatCoordinateRoundTrip | src/lib/vehicle-utils.ts:47-52 | magnitude and hemisphere letter together give back the signed coordinate |
| VehicleUtils.FormatElapsedTime | src/lib/vehicle-utils.ts:54-58 | `MM:SS` has length exactly 5 iff the count is below 6000 s, never less than 5, and the colon is third from the end, so the seconds field has two characters; a minutes field longer than two digits has no leading zero |
| VehicleUtils.FormatElapsedTimeRoundTrip | src/lib/vehicle-utils.ts:54-58 | the text reads back as minutes and seconds with `mins·60 + secs` equal to the count and `secs < 60` |
| RouteGenerator.GenerateRoute | src/lib/route-generator.ts:3-26 | the route has exactly `numPoints` points |
| RouteGenerator.GeneratedTimestamps | src/lib/route-generator.ts:20 | point i is stamped `startTime + 5000·i`; consecutive points are 5 s apart and times strictly increase |
| RouteGenerator.GeneratedSpeedsDefined | src/lib/route-generator.ts:20 | on a generated route every segment's speed is the rounded speed over 5 s, so the zero-time guard never fires |
| RouteGenerator.GeneratedStart | src/lib/route-generator.ts:12-18 | the first point is exactly the start location at the start time |
| RouteGenerator.LongitudeAt | src/lib/route-generator.ts:18 | the longitude of point i is i equal strides from the start longitude |
| RouteGenerator.LongitudeStep | src/lib/route-generator.ts:18 | consecutive longitudes differ by exactly one stride |
| RouteGenerator.LastLongitude | src/lib/route-generator.ts:12-18 | the last longitude is exactly the end longitude |
| RouteGenerator.GeneratedLongitudes | src/lib/route-generator.ts:11-18 | longitudes lie on the straight line with equal strides and end exactly at the end longitude |
| RouteGenerator.GeneratedLatitudes | src/lib/route-generator.ts:15-17 | every latitude is within 0.002 of the straight line |
| Simulation.CurrentPosition | src/hooks/use-vehicle-simulation.ts:41-47 | the position is null exactly when the index is past the route's end; at the last index it is that point |
| Simulation.TraveledPath | src/hooks/use-vehicle-simulation.ts:49-61 | an empty route leaves the trail alone; otherwise the trail is the route's points up to the index, as `[lng, lat]`, plus one entry while a segment follows |
| Simulation.Rebuild | src/hooks/use-vehicle-simulation.ts:63-65 | the effect replaces the trail and changes nothing else |
| Simulation.Tick | src/hooks/use-vehicle-simulation.ts:67-101 | a throttled frame changes no simulation field, and once a baseline exists it leaves the whole state unchanged, so the baseline survives; an accepted frame sets `lastUpdate` to its timestamp and leaves the trail equal to the one rebuilt from the new index and progress; the first frame after `play()` never advances when the interval is positive |
| Simulation.Play | src/hooks/use-vehicle-simulation.ts:120-128 | playing starts and the baseline is cleared; index, progress and elapsed go to 0 only when the index is at or past `length-1`; speed, trail and playback speed are kept |
| Simulation.Pause | src/hooks/use-vehicle-simulation.ts:130-132 | only the playing flag changes, to false |
| Simulation.Reset | src/hooks/use-vehicle-simulation.ts:134-144 | stopped at index 0 with progress 0, elapsed 0, speed 0 and an empty trail; the playback speed is kept |
| Simulation.SetPlaybackSpeed | src/hooks/use-vehicle-simulation.ts:35 | only the playback speed changes, to the given value, unchecked |
| Simulation.Percent | src/hooks/use-vehicle-simulation.ts:146-148 | 0 for an empty route, not finite exactly for a one-point route, and in [0,100) in every reachable state |
| Playback.AcceptedFrameWithinSegment | src/hooks/use-vehicle-simulation.ts:77-79 | a frame that does not wrap adds exactly `1/animationSteps` of progress and keeps index, speed, elapsed and playing |
| Playback.AcceptedFrameWraps | src/hooks/use-vehicle-simulation.ts:80-96 | a wrap resets progress to 0 and adds 1 to elapsed; with a further segment the index advances and the speed is that of the completed segment, otherwise playback stops with index and speed unchanged |
| Playback.ThrottleScalesWithSpeed | src/hooks/use-vehicle-simulation.ts:72-75 | the throttle threshold is the interval divided by the playback speed: at speed 1 a frame is accepted exactly when `updateInterval` ms have passed since the baseline, and a faster speed accepts every frame a slower one accepts |
| Playback.TickPreservesInv | src/hooks/use-vehicle-simulation.ts:67-101 | every frame keeps the index within `0..length-2` and progress below 1 |
| Playback.ControlsPreserveInv | src/hooks/use-vehicle-simulation.ts:120-144 | play, pause, reset and a slider speed keep the same invariant |
| Playback.PauseIdempotent | src/hooks/use-vehicle-simulation.ts:130-132 | pausing twice is pausing once |
| Playback.ResetForgets | src/hooks/use-vehicle-simulation.ts:134-144 | the reset state depends only on the playback speed and the throttle baseline, and resetting twice is resetting once |
| Playback.FrameWhilePlaying | src/hooks/use-vehicle-simulation.ts:77-99 | before the route's last frame an accepted frame keeps playing and moves exactly one step on, counting a unit of elapsed time per segment entered |
| Playback.FramesWhilePlaying | src/hooks/use-vehicle-simulation.ts:77-99 | k frames before the route's last one keep playing and move exactly k steps on |
| Playback.LastStepOfRoute | src/hooks/use-vehicle-simulation.ts:80-86 | one frame short of the end, the engine is on the last step of the last segment |
| Playback.FinalFrame | src/hooks/use-vehicle-simulation.ts:83-86 | the last step of the last segment stops playback at index `length-2` with progress 0 and one more unit of elapsed time |
| Playback.PlayingBeforeEnd | src/hooks/use-vehicle-simulation.ts:77-99 | playback stays on for every frame before the route's last one |
| Playback.EndOfRun | src/hooks/use-vehicle-simulation.ts:80-96 | the frame that completes the last segment leaves a finished run with elapsed counting every segment entered |
| Playback.PlaybackRunsToEnd | src/hooks/use-vehicle-simulation.ts:77-99 | from the first point, playback stops after exactly `(N-1)·animationSteps` accepted frames, at index `N-2` with progress 0 and `N-1` more units of elapsed time |
| Playback.PlayFromResetRunsToEnd | src/hooks/use-vehicle-simulation.ts:120-144 | after reset and play, a full run ends with elapsed time exactly `N-1` |
| Playback.LastSegmentRun | src/hooks/use-vehicle-simulation.ts:80-96 | a run started on the last segment's first point finishes again after `animationSteps` frames |
| Playback.PlayAfterFinishReplaysLastSegment | src/hooks/use-vehicle-simulation.ts:120-128 | `play()` after a natural finish keeps the index at `N-2`, replays the last segment and finishes again with one more unit of elapsed time |
| Playback.PlayRestartsIff | src/hooks/use-vehicle-simulation.ts:121-125 | from a state away from the start, `play()` restarts exactly when the index is at or past `length-1` |
| Playback.CurrentPositionOnSegment | src/hooks/use-vehicle-simulation.ts:41-47 | in every reachable state the vehicle is the progress-weighted mean `(1-t)·route[i] + t·route[i+1]` on each axis, hence on its current segment, and at progress 0 exactly the segment's first point |
| Playback.InterpolateStep | src/lib/vehicle-utils.ts:60-69 | advancing the interpolation fraction by `1/m` moves each coordinate by `1/m` of the segment's extent |
| Playback.FrameMovesVehicle | src/hooks/use-vehicle-simulation.ts:41-47 | a frame inside a segment moves each coordinate by exactly `(route[i+1] - route[i]) / animationSteps` |
| Playback.TraveledPathShape | src/hooks/use-vehicle-simulation.ts:49-61 | the rebuilt trail of a well-formed state has `index+2` entries: the route's points up to the index, then the vehicle |
| Playback.TrailAfterFrame | src/hooks/use-vehicle-simulation.ts:49-65 | after every accepted frame the engine's own trail has `index+2` entries: the route's points up to the new index, then the vehicle's new position |
| Playback.EmptyRoute | src/hooks/use-vehicle-simulation.ts:41-61 | an empty route has no position and 0 percent, keeps its trail, and no play or frame moves the index off 0 |
| Playback.PercentAlongRun | src/hooks/use-vehicle-simulation.ts:146-148 | every accepted frame but the route's last raises the percentage; the last one lowers it to `(N-2)/(N-1)·100` |
| IndexPage.MapClick | src/pages/Index.tsx:35-51 | a click sets the start while it is being selected, else the end while it is being selected, and clears that flag; with neither flag set nothing changes |
| IndexPage.StartSelect | src/pages/Index.tsx:53-56 | selecting the start sets its flag, clears the end flag and changes nothing else |
| IndexPage.EndSelect | src/pages/Index.tsx:58-61 | selecting the end sets its flag, clears the start flag and changes nothing else |
| IndexPage.ClearLocations | src/pages/Index.tsx:63-71 | both locations and the route are gone, no route is marked generated, no selection is pending and playback is reset |
| IndexPage.GenerateRoute | src/pages/Index.tsx:73-84 | with both locations set the installed route is the generator's 30-point route from the start location to the end location, it is marked generated and playback is reset; otherwise nothing changes |
| IndexPage.StepPreservesInv | src/pages/Index.tsx:35-87 | every handler, control and frame keeps the selection flags exclusive and the engine invariant |
| IndexPage.Run | src/pages/Index.tsx:35-87 | any sequence of valid events keeps the page invariant |
| IndexPage.ReachableStatesAreWellFormed | src/pages/Index.tsx:53-61 | from the initial page, no sequence of events sets both selection flags or moves the index past the route's last segment |
| IndexPage.PickBothThenGenerate | src/pages/Index.tsx:86-87 | picking a start and then an end enables route generation with no selection pending, and generation then happens |

## Left out

- Animation scheduling: `requestAnimationFrame`, `cancelAnimationFrame`, effect timing and the stale capture of `isPlaying` in `animate` (src/hooks/use-vehicle-simulation.ts:103-118, 141-143). Frames are explicit `Tick` calls. A frame delivered while stopped is not excluded by `Tick` itself.
- The traveled-path effect after a control: the model rebuilds the trail after accepted frames only. After `reset()` or a new route, React re-runs the effect on the next render, and that re-run is not modelled.
- Floating-point accumulation of `1/animationSteps`: progress is an exact step counter. In IEEE doubles a segment may take one frame more (11 for `animationSteps` 10) but never fewer. With the default 20 the count is exact.
- The haversine formula and ISO-8601 parsing and printing. Distance is a parameter, and timestamps are integer milliseconds.
- Simulation.Tick: a falsy `lastUpdate` other than 0 (NaN) is not modelled. A non-slider playback speed is excluded by the requires, because the slider offers only 0.5–4 in steps of 0.5.
- Simulation.Tick: on a one-point route with `animationSteps` 1, an accepted frame changes neither index nor progress, and `currentPosition` is the same route object on every render. So the source's effect does not re-run and keeps the old trail, for example `[]` after `reset()`. The model still rebuilds it to the single route point. The page only installs 30-point routes.
- Simulation.Tick: `animationSteps` is at least 1. The hook's 0 would make progress infinite and wrap every frame.
- RouteGenerator.GenerateRoute: `numPoints == 1` is excluded. The source divides 0 by 0 there and produces a NaN point.
- The concrete value of `Math.sin(progress·π)·0.002`. Only its bound and its zero at progress 0 are used. At progress 1 the floating-point sine is not exactly 0, so the last latitude is only claimed within 0.002 of the end.
- Exactness of coordinates: interpolation at progress 1 and the generator's last longitude equal the end point exactly in real arithmetic (VehicleUtils.InterpolateEnds, RouteGenerator.LastLongitude). In doubles `a + (b - a)·1` can differ from `b` in the last bit.
- VehicleUtils.FormatCoordinate: the six-decimal rendering `toFixed(6)` and the degree sign are not modelled. Only the magnitude and the hemisphere letter are.
- The Leaflet map widget, the presentational components and the toast notifications. They only display values or forward clicks.

=== FILE: decimal.dfy ===
/**
 * Decimal numerals of non-negative integers: what `Number.prototype.toString()`
 * and `String.prototype.padStart` produce for them, and a reader that turns a
 * numeral back into its value.
 */
module Decimal {

  predicate IsDigit(c: char) {
    '0' <= c <= '9'
  }

  predicate AllDigits(s: string) {
    forall i :: 0 <= i < |s| ==> IsDigit(s[i])
  }

  /** A string made only of the fill character '0'. */
  predicate AllZeros(s: string) {
    forall i :: 0 <= i < |s| ==> s[i] == '0'
  }

  function DigitChar(d: nat): (c: char)
    requires d < 10
    ensures IsDigit(c)
  {
    (('0' as int) + d) as char
  }

  function DigitValue(c: char): (d: nat)
    requires IsDigit(c)
    ensures d < 10 && DigitChar(d) == c
  {
    (c as int) - ('0' as int)
  }

  /** The shortest decimal numeral of `n`, as `n.toString()` writes it. */
  function Show(n: nat): (r: string)
    ensures AllDigits(r)
    ensures |r| >= 1
    ensures n < 10 <==> |r| == 1
    ensures n < 100 <==> |r| <= 2
    ensures r[0] == '0' ==> n == 0
    decreases n
  {
    if n < 10 then [DigitChar(n)] else Show(n / 10) + [DigitChar(n % 10)]
  }

  /** The value of a numeral, most significant digit first; leading zeros are allowed. */
  function Parse(s: string): nat
    requires AllDigits(s)
    decreases |s|
  {
    if |s| == 0 then 0 else Parse(s[..|s| - 1]) * 10 + DigitValue(s[|s| - 1])
  }

  function Repeat(c: char, k: nat): (r: string)
    ensures |r| == k
    ensures forall i :: 0 <= i < k ==> r[i] == c
  {
    if k == 0 then [] else [c] + Repeat(c, k - 1)
  }

  /** `s.padStart(width, fill)` for a one-character fill: never truncates. */
  function PadStart(s: string, width: nat, fill: char): (r: string)
    ensures |s| >= width ==> r == s
    ensures |s| < width ==> |r| == width
    ensures |r| >= |s| && r[|r| - |s|..] == s
    ensures forall i :: 0 <= i < |r| - |s| ==> r[i] == fill
  {
    if |s| >= width then s else Repeat(fill, width - |s|) + s
  }

  /** Reading back what `Show` wrote gives the number again. */
  lemma {:induction false} ParseShow(n: nat)
    ensures Parse(Show(n)) == n
    decreases n
  {
    if n >= 10 {
      var prefix := Show(n / 10);
      var s := prefix + [DigitChar(n % 10)];
      assert s[..|s| - 1] == prefix;
      ParseShow(n / 10);
    }
  }

  lemma {:induction false} ParseZeros(z: string)
    requires AllZeros(z)
    ensures AllDigits(z) && Parse(z) == 0
    decreases |z|
  {
    if |z| > 0 {
      ParseZeros(z[..|z| - 1]);
    }
  }

  /** Leading zeros do not change the value of a numeral. */
  lemma {:induction false} ParseLeadingZeros(z: string, x: string)
    requires AllZeros(z) && AllDigits(x)
    ensures AllDigits(z + x) && Parse(z + x) == Parse(x)
    decreases |x|
  {
    if |x| == 0 {
      assert z + x == z;
      ParseZeros(z);
    } else {
      var w := z + x;
      assert w[..|w| - 1] == z + x[..|x| - 1];
      ParseLeadingZeros(z, x[..|x| - 1]);
    }
  }

  /** Zero-padding a numeral keeps it a numeral of the same value. */
  lemma ParsePadded(n: nat, width: nat)
    ensures AllDigits(PadStart(Show(n), width, '0'))
    ensures Parse(PadStart(Show(n), width, '0')) == n
  {
    var s := Show(n);
    ParseShow(n);
    if |s| < width {
      ParseLeadingZeros(Repeat('0', width - |s|), s);
    }
  }
}

=== FILE: index_page.dfy ===
/**
 * The page that wires everything together: two optional locations picked on
 * the map, two "selecting" flags, the generated route and the playback engine
 * (with the hook's default configuration).
 */
module IndexPage {
  import opened Wrappers
  import opened VehicleUtils
  import opened RouteGenerator
  import opened Simulation

  /** Points the page asks the generator for. */
  const RoutePoints: nat := 30

  datatype Page = Page(
    route: seq<RoutePoint>,
    startLocation: Option<LatLng>,
    endLocation: Option<LatLng>,
    selectingStart: bool,
    selectingEnd: bool,
    routeGenerated: bool,
    sim: Sim)

  const InitialPage: Page := Page([], None, None, false, false, false, Initial)

  /** `canGenerateRoute`. */
  predicate CanGenerateRoute(p: Page) {
    p.startLocation.Some? && p.endLocation.Some?
  }

  /** `isSelectingLocation`: the map shows a crosshair while either flag is set. */
  predicate IsSelectingLocation(p: Page) {
    p.selectingStart || p.selectingEnd
  }

  /**
   * `handleMapClick`: a click fills the start location if it is being
   * selected, otherwise the end location if that is; start takes precedence.
   * With neither flag set the click is ignored.
   */
  function MapClick(p: Page, lat: real, lng: real): (r: Page)
    ensures p.selectingStart ==>
      r == p.(startLocation := Some(LatLng(lat, lng)), selectingStart := false)
    ensures !p.selectingStart && p.selectingEnd ==>
      r == p.(endLocation := Some(LatLng(lat, lng)), selectingEnd := false)
    ensures !IsSelectingLocation(p) ==> r == p
  {
    if p.selectingStart then p.(startLocation := Some(LatLng(lat, lng)), selectingStart := false)
    else if p.selectingEnd then p.(endLocation := Some(LatLng(lat, lng)), selectingEnd := false)
    else p
  }

  /** `handleStartSelect`: select the start, stop selecting the end. */
  function StartSelect(p: Page): (r: Page)
    ensures r.selectingStart && !r.selectingEnd
    ensures r.(selectingStart := p.selectingStart, selectingEnd := p.selectingEnd) == p
  {
    p.(selectingStart := true, selectingEnd := false)
  }

  /** `handleEndSelect`: select the end, stop selecting the start. */
  function EndSelect(p: Page): (r: Page)
    ensures r.selectingEnd && !r.selectingStart
    ensures r.(selectingStart := p.selectingStart, selectingEnd := p.selectingEnd) == p
  {
    p.(selectingEnd := true, selectingStart := false)
  }

  /** `handleClearLocations`: forget both locations and the route, and reset playback. */
  function ClearLocations(p: Page): (r: Page)
    ensures r.startLocation.None? && r.endLocation.None? && r.route == []
    ensures !r.routeGenerated && !IsSelectingLocation(r) && !CanGenerateRoute(r)
    ensures r.sim == Reset(p.sim)
  {
    p.(startLocation := None, endLocation := None, route := [], routeGenerated := false,
       selectingStart := false, selectingEnd := false, sim := Reset(p.sim))
  }

  /**
   * `handleGenerateRoute` with the clock at `startTime` (ms) and the bend
   * `curve`: with both locations set, install a fresh 30-point route and reset
   * playback; otherwise do nothing.
   */
  function GenerateRoute(p: Page, startTime: int, curve: real -> real): (r: Page)
    ensures !CanGenerateRoute(p) ==> r == p
    ensures CanGenerateRoute(p) ==>
      r.route == RouteGenerator.GenerateRoute(p.startLocation.value, p.endLocation.value, RoutePoints, startTime, curve)
    ensures CanGenerateRoute(p) ==>
      |r.route| == RoutePoints && r.routeGenerated && r.sim == Reset(p.sim) &&
      r.startLocation == p.startLocation && r.endLocation == p.endLocation &&
      r.selectingStart == p.selectingStart && r.selectingEnd == p.selectingEnd
  {
    if CanGenerateRoute(p) then
      var route := RouteGenerator.GenerateRoute(p.startLocation.value, p.endLocation.value, RoutePoints, startTime, curve);
      p.(route := route, routeGenerated := true, sim := Reset(p.sim))
    else p
  }

  /** Everything a user or the browser can do to the page. */
  datatype Event =
    | Click(lat: real, lng: real)
    | SelectStart
    | SelectEnd
    | Clear
    | Generate(startTime: int)
    | PlayPressed
    | PausePressed
    | ResetPressed
    | SpeedChosen(x: real)
    | Frame(now: real)

  /** Events the controls can produce: the slider only offers its own values. */
  predicate ValidEvent(e: Event) {
    e.SpeedChosen? ==> SliderSpeed(e.x)
  }

  /** What holds on every page state reachable from the initial one. */
  predicate PageInv(p: Page) {
    !(p.selectingStart && p.selectingEnd) &&
    Inv(DefaultConfig, p.sim, p.route) &&
    (p.routeGenerated ==> |p.route| == RoutePoints)
  }

  function Step(p: Page, e: Event, curve: real -> real, distance: (RoutePoint, RoutePoint) -> real): Page
    requires PageInv(p) && ValidEvent(e)
  {
    match e
    case Click(lat, lng) => MapClick(p, lat, lng)
    case SelectStart => StartSelect(p)
    case SelectEnd => EndSelect(p)
    case Clear => ClearLocations(p)
    case Generate(t) => GenerateRoute(p, t, curve)
    case PlayPressed => p.(sim := Play(p.sim, p.route))
    case PausePressed => p.(sim := Pause(p.sim))
    case ResetPressed => p.(sim := Reset(p.sim))
    case SpeedChosen(x) => p.(sim := SetPlaybackSpeed(p.sim, x))
    case Frame(now) => p.(sim := Tick(DefaultConfig, p.sim, p.route, now, distance))
  }

  /** Every event keeps the page invariant: in particular the two selecting flags are never both set. */
  lemma StepPreservesInv(p: Page, e: Event, curve: real -> real, distance: (RoutePoint, RoutePoint) -> real)
    requires PageInv(p) && ValidEvent(e)
    ensures PageInv(Step(p, e, curve, distance))
  {
  }

  /** Runs a sequence of events from a page state. */
  function Run(p: Page, events: seq<Event>, curve: real -> real, distance: (RoutePoint, RoutePoint) -> real): (r: Page)
    requires PageInv(p) && forall i :: 0 <= i < |events| ==> ValidEvent(events[i])
    ensures PageInv(r)
    decreases |events|
  {
    if |events| == 0 then p
    else
      StepPreservesInv(p, events[0], curve, distance);
      Run(Step(p, events[0], curve, distance), events[1..], curve, distance)
  }

  /**
   * From the initial page, any sequence of valid events leaves the flags
   * exclusive, the engine's index within the route and progress below 1.
   */
  lemma ReachableStatesAreWellFormed(events: seq<Event>, curve: real -> real, distance: (RoutePoint, RoutePoint) -> real)
    requires forall i :: 0 <= i < |events| ==> ValidEvent(events[i])
    ensures var p := Run(InitialPage, events, curve, distance);
      !(p.selectingStart && p.selectingEnd) && Inv(DefaultConfig, p.sim, p.route)
  {
    assert SliderSpeed(1.0);
  }

  /**
   * Picking a start and then an end on the map enables route generation and
   * leaves no selection pending, whatever was chosen before.
   */
  lemma PickBothThenGenerate(p: Page, a: LatLng, b: LatLng, startTime: int, curve: real -> real)
    ensures var q := MapClick(EndSelect(MapClick(StartSelect(p), a.lat, a.lng)), b.lat, b.lng);
      CanGenerateRoute(q) && !IsSelectingLocation(q) &&
      q.startLocation == Some(a) && q.endLocation == Some(b) &&
      GenerateRoute(q, startTime, curve).routeGenerated
  {
  }
}

=== FILE: playback.dfy ===
/**
 * Properties of the playback engine over single frames and whole runs: what
 * one accepted frame does, the invariant every operation keeps, when playback
 * stops, and what `Play` does after a finished run.
 */
module Playback {
  import opened Wrappers
  import opened VehicleUtils
  import opened Simulation

  /** `k` accepted frames in a row. */
  function Frames(cfg: Config, s: Sim, route: seq<RoutePoint>, distance: (RoutePoint, RoutePoint) -> real, k: nat): Sim
    requires ValidConfig(cfg)
  {
    if k == 0 then s else Accept(cfg, Frames(cfg, s, route, distance, k - 1), route, distance)
  }

  /** Frames taken since the start of the route: whole segments plus steps on the current one. */
  function Pos(cfg: Config, s: Sim): int {
    s.index * cfg.animationSteps + s.step
  }

  /** Accepted frames needed to traverse every segment of a route of `n` points. */
  function TotalFrames(cfg: Config, n: int): int {
    (n - 1) * cfg.animationSteps
  }

  lemma MulMonotone(a: int, b: int, m: nat)
    requires a <= b
    ensures a * m <= b * m
  {
    assert b * m - a * m == (b - a) * m;
  }

  /** A frame that does not wrap adds exactly one step, i.e. `1/animationSteps` of progress, and nothing else. */
  lemma AcceptedFrameWithinSegment(cfg: Config, s: Sim, route: seq<RoutePoint>, now: real, distance: (RoutePoint, RoutePoint) -> real)
    requires ValidConfig(cfg) && SliderSpeed(s.playbackSpeed)
    requires Accepted(cfg, s, now) && s.step + 1 < cfg.animationSteps
    ensures var r := Tick(cfg, s, route, now, distance);
      Progress(cfg, r) == Progress(cfg, s) + 1.0 / cfg.animationSteps as real &&
      r.index == s.index && r.speed == s.speed && r.elapsed == s.elapsed &&
      r.playing == s.playing && r.lastUpdate == now
  {
  }

  /**
   * A frame whose progress would reach 1 wraps: progress restarts at 0 and one
   * more unit of elapsed time is counted. With a further segment the index
   * advances and the speed becomes that of the segment just completed;
   * otherwise playback stops with index and speed unchanged.
   */
  lemma AcceptedFrameWraps(cfg: Config, s: Sim, route: seq<RoutePoint>, now: real, distance: (RoutePoint, RoutePoint) -> real)
    requires ValidConfig(cfg) && SliderSpeed(s.playbackSpeed)
    requires Accepted(cfg, s, now) && s.step + 1 >= cfg.animationSteps
    ensures var r := Tick(cfg, s, route, now, distance);
      r.step == 0 && Progress(cfg, r) == 0.0 && r.elapsed == s.elapsed + 1 && r.lastUpdate == now &&
      (s.index + 1 < |route| - 1 ==>
        r.index == s.index + 1 && r.playing == s.playing &&
        r.speed == CalculateSpeed(route[s.index], route[s.index + 1], distance(route[s.index], route[s.index + 1]))) &&
      (s.index + 1 >= |route| - 1 ==> r.index == s.index && !r.playing && r.speed == s.speed)
  {
  }

  /** Every frame, accepted or not, keeps the state invariant. */
  lemma TickPreservesInv(cfg: Config, s: Sim, route: seq<RoutePoint>, now: real, distance: (RoutePoint, RoutePoint) -> real)
    requires ValidConfig(cfg) && Inv(cfg, s, route)
    ensures Inv(cfg, Tick(cfg, s, route, now, distance), route)
  {
  }

  /** The controls keep the invariant; `Reset` establishes it from any state with a slider speed. */
  lemma ControlsPreserveInv(cfg: Config, s: Sim, route: seq<RoutePoint>, x: real)
    requires ValidConfig(cfg) && Inv(cfg, s, route) && SliderSpeed(x)
    ensures Inv(cfg, Play(s, route), route)
    ensures Inv(cfg, Pause(s), route)
    ensures Inv(cfg, Reset(s), route)
    ensures Inv(cfg, SetPlaybackSpeed(s, x), route)
  {
  }

  /** `Pause` is idempotent. */
  lemma PauseIdempotent(s: Sim)
    ensures Pause(Pause(s)) == Pause(s)
  {
  }

  /** `Reset` forgets everything but the playback speed and the throttle baseline, and is idempotent. */
  lemma ResetForgets(a: Sim, b: Sim)
    requires a.playbackSpeed == b.playbackSpeed && a.lastUpdate == b.lastUpdate
    ensures Reset(a) == Reset(b)
    ensures Reset(Reset(a)) == Reset(a)
  {
  }

  /** One accepted frame that is not the last of the route keeps playing and moves one step on. */
  lemma FrameWhilePlaying(cfg: Config, s: Sim, route: seq<RoutePoint>, distance: (RoutePoint, RoutePoint) -> real)
    requires ValidConfig(cfg) && |route| >= 2 && Inv(cfg, s, route) && s.playing
    requires Pos(cfg, s) + 1 < TotalFrames(cfg, |route|)
    ensures var r := Accept(cfg, s, route, distance);
      Inv(cfg, r, route) && r.playing && Pos(cfg, r) == Pos(cfg, s) + 1 &&
      r.elapsed - r.index == s.elapsed - s.index
  {
    var m := cfg.animationSteps;
    if s.step + 1 >= m {
      assert (s.index + 1) * m == s.index * m + m;
      if s.index + 1 >= |route| - 1 {
        MulMonotone(|route| - 1, s.index + 1, m);
      }
    }
  }

  /** Before the last frame of the route, playback is still on and each frame adds one step. */
  lemma {:induction false} FramesWhilePlaying(cfg: Config, s: Sim, route: seq<RoutePoint>, distance: (RoutePoint, RoutePoint) -> real, k: nat)
    requires ValidConfig(cfg) && |route| >= 2 && Inv(cfg, s, route) && s.playing
    requires Pos(cfg, s) + k < TotalFrames(cfg, |route|)
    ensures var r := Frames(cfg, s, route, distance, k);
      Inv(cfg, r, route) && r.playing && Pos(cfg, r) == Pos(cfg, s) + k &&
      r.elapsed - r.index == s.elapsed - s.index
  {
    if k > 0 {
      FramesWhilePlaying(cfg, s, route, distance, k - 1);
      FrameWhilePlaying(cfg, Frames(cfg, s, route, distance, k - 1), route, distance);
    }
  }

  /** The only state one frame short of the end is the last step of the last segment. */
  lemma LastStepOfRoute(cfg: Config, s: Sim, route: seq<RoutePoint>)
    requires ValidConfig(cfg) && |route| >= 2 && Inv(cfg, s, route)
    requires Pos(cfg, s) == TotalFrames(cfg, |route|) - 1
    ensures s.index == |route| - 2 && s.step == cfg.animationSteps - 1
  {
    var m := cfg.animationSteps;
    assert TotalFrames(cfg, |route|) == (|route| - 2) * m + m;
    if s.index < |route| - 2 {
      MulMonotone(s.index, |route| - 3, m);
    }
  }

  /** The last step of the last segment stops playback, leaves the index at `length-2` and progress at 0. */
  lemma FinalFrame(cfg: Config, s: Sim, route: seq<RoutePoint>, distance: (RoutePoint, RoutePoint) -> real)
    requires ValidConfig(cfg) && |route| >= 2
    requires s.index == |route| - 2 && s.step == cfg.animationSteps - 1
    ensures var r := Accept(cfg, s, route, distance);
      !r.playing && r.index == |route| - 2 && r.step == 0 && r.elapsed == s.elapsed + 1
  {
  }

  /** A run that ended naturally: on the last segment's first point, progress 0, stopped. */
  predicate Finished(s: Sim, route: seq<RoutePoint>) {
    |route| >= 2 && s.index == |route| - 2 && s.step == 0 && !s.playing
  }

  /** From any playing state, playback is still on before the route's last frame. */
  lemma PlayingBeforeEnd(cfg: Config, s: Sim, route: seq<RoutePoint>, distance: (RoutePoint, RoutePoint) -> real)
    requires ValidConfig(cfg) && |route| >= 2 && Inv(cfg, s, route) && s.playing
    ensures forall k: nat :: Pos(cfg, s) + k < TotalFrames(cfg, |route|) ==> Frames(cfg, s, route, distance, k).playing
  {
    forall k: nat | Pos(cfg, s) + k < TotalFrames(cfg, |route|)
      ensures Frames(cfg, s, route, distance, k).playing
    {
      FramesWhilePlaying(cfg, s, route, distance, k);
    }
  }

  /** The frame that completes the last segment of the route. */
  lemma EndOfRun(cfg: Config, s: Sim, route: seq<RoutePoint>, distance: (RoutePoint, RoutePoint) -> real, k: nat)
    requires ValidConfig(cfg) && |route| >= 2 && Inv(cfg, s, route) && s.playing
    requires k >= 1 && Pos(cfg, s) + k == TotalFrames(cfg, |route|)
    ensures var r := Frames(cfg, s, route, distance, k);
      Finished(r, route) && r.elapsed == s.elapsed + (|route| - 2 - s.index) + 1
  {
    var q := Frames(cfg, s, route, distance, k - 1);
    FramesWhilePlaying(cfg, s, route, distance, k - 1);
    LastStepOfRoute(cfg, q, route);
    FinalFrame(cfg, q, route, distance);
  }

  /**
   * Started from the first point, playback runs for exactly
   * `(length-1) · animationSteps` accepted frames: it is on before the last of
   * them and off after it, which leaves the index at `length-2` (never at the
   * last point), progress 0 and `length-1` more units of elapsed time.
   */
  lemma PlaybackRunsToEnd(cfg: Config, s: Sim, route: seq<RoutePoint>, distance: (RoutePoint, RoutePoint) -> real)
    requires ValidConfig(cfg) && |route| >= 2 && SliderSpeed(s.playbackSpeed)
    requires s.index == 0 && s.step == 0 && s.playing
    ensures forall k: nat :: k < TotalFrames(cfg, |route|) ==> Frames(cfg, s, route, distance, k).playing
    ensures var r := Frames(cfg, s, route, distance, TotalFrames(cfg, |route|));
      !r.playing && r.index == |route| - 2 && r.step == 0 && r.elapsed == s.elapsed + |route| - 1
  {
    assert Inv(cfg, s, route) && Pos(cfg, s) == 0;
    PlayingBeforeEnd(cfg, s, route, distance);
    var n := TotalFrames(cfg, |route|);
    MulMonotone(1, |route| - 1, cfg.animationSteps);
    assert n >= 1;
    EndOfRun(cfg, s, route, distance, n);
    assert Finished(Frames(cfg, s, route, distance, n), route);
  }

  /** From a freshly reset engine, `Play` and a full run count exactly `length-1` units of elapsed time. */
  lemma PlayFromResetRunsToEnd(cfg: Config, s: Sim, route: seq<RoutePoint>, distance: (RoutePoint, RoutePoint) -> real)
    requires ValidConfig(cfg) && |route| >= 2 && SliderSpeed(s.playbackSpeed)
    ensures var r := Frames(cfg, Play(Reset(s), route), route, distance, TotalFrames(cfg, |route|));
      !r.playing && r.index == |route| - 2 && r.step == 0 && r.elapsed == |route| - 1
  {
    PlaybackRunsToEnd(cfg, Play(Reset(s), route), route, distance);
  }

  /** A run started on the last segment's first point takes `animationSteps` frames and finishes again. */
  lemma LastSegmentRun(cfg: Config, p: Sim, route: seq<RoutePoint>, distance: (RoutePoint, RoutePoint) -> real)
    requires ValidConfig(cfg) && |route| >= 2 && Inv(cfg, p, route) && p.playing
    requires p.index == |route| - 2 && p.step == 0
    ensures forall k: nat :: k < cfg.animationSteps ==> Frames(cfg, p, route, distance, k).playing
    ensures var r := Frames(cfg, p, route, distance, cfg.animationSteps);
      Finished(r, route) && r.elapsed == p.elapsed + 1
  {
    var m := cfg.animationSteps;
    assert Pos(cfg, p) + m == TotalFrames(cfg, |route|) by {
      assert (|route| - 2) * m + m == (|route| - 1) * m;
    }
    PlayingBeforeEnd(cfg, p, route, distance);
    EndOfRun(cfg, p, route, distance, m);
  }

  /**
   * `Play` after a natural finish does not start over: the index is below
   * `length-1`, so the restart branch is skipped and the last segment is
   * replayed, stopping again after `animationSteps` frames with one more unit of
   * elapsed time.
   */
  lemma PlayAfterFinishReplaysLastSegment(cfg: Config, s: Sim, route: seq<RoutePoint>, distance: (RoutePoint, RoutePoint) -> real)
    requires ValidConfig(cfg) && Finished(s, route) && SliderSpeed(s.playbackSpeed)
    ensures var p := Play(s, route);
      p.index == |route| - 2 && p.step == 0 && p.elapsed == s.elapsed
    ensures forall k: nat :: k < cfg.animationSteps ==> Frames(cfg, Play(s, route), route, distance, k).playing
    ensures var r := Frames(cfg, Play(s, route), route, distance, cfg.animationSteps);
      Finished(r, route) && r.elapsed == s.elapsed + 1
  {
    LastSegmentRun(cfg, Play(s, route), route, distance);
  }

  /** `Play` restarts from the first point exactly when the index is at or past the route's last index. */
  lemma PlayRestartsIff(s: Sim, route: seq<RoutePoint>)
    requires s.index > 0 || s.step > 0 || s.elapsed > 0
    ensures var p := Play(s, route);
      (p.index == 0 && p.step == 0 && p.elapsed == 0) <==> s.index >= |route| - 1
  {
  }

  /**
   * While a segment follows, the vehicle is the progress-weighted mean of the
   * segment's endpoints, so it lies on the segment; at progress 0 it is exactly
   * on the segment's first point.
   */
  lemma CurrentPositionOnSegment(cfg: Config, s: Sim, route: seq<RoutePoint>)
    requires ValidConfig(cfg) && |route| >= 2 && Inv(cfg, s, route)
    ensures var pos := CurrentPosition(cfg, s, route);
      var t := Progress(cfg, s);
      pos.Some? &&
      pos.value.latitude == (1.0 - t) * route[s.index].latitude + t * route[s.index + 1].latitude &&
      pos.value.longitude == (1.0 - t) * route[s.index].longitude + t * route[s.index + 1].longitude &&
      Between(route[s.index].latitude, pos.value.latitude, route[s.index + 1].latitude) &&
      Between(route[s.index].longitude, pos.value.longitude, route[s.index + 1].longitude) &&
      (s.step == 0 ==> pos.value == PositionOf(route[s.index]))
  {
    FractionBelowOne(s.step as real, cfg.animationSteps as real);
    InterpolateBetween(route[s.index], route[s.index + 1], Progress(cfg, s));
    InterpolateEnds(route[s.index], route[s.index + 1]);
  }

  /**
   * A frame that stays inside a segment moves the vehicle along it by exactly
   * one `animationSteps`-th of the segment on each axis.
   */
  lemma FrameMovesVehicle(cfg: Config, s: Sim, route: seq<RoutePoint>, now: real, distance: (RoutePoint, RoutePoint) -> real)
    requires ValidConfig(cfg) && |route| >= 2 && Inv(cfg, s, route)
    requires Accepted(cfg, s, now) && s.step + 1 < cfg.animationSteps
    ensures var a, b := route[s.index], route[s.index + 1];
      var before := CurrentPosition(cfg, s, route).value;
      var after := CurrentPosition(cfg, Tick(cfg, s, route, now, distance), route).value;
      after.latitude - before.latitude == (b.latitude - a.latitude) / cfg.animationSteps as real &&
      after.longitude - before.longitude == (b.longitude - a.longitude) / cfg.animationSteps as real
  {
    var r := Tick(cfg, s, route, now, distance);
    AcceptedFrameWithinSegment(cfg, s, route, now, distance);
    var a, b := route[s.index], route[s.index + 1];
    assert CurrentPosition(cfg, s, route).value == Interpolate(a, b, Progress(cfg, s));
    assert CurrentPosition(cfg, r, route).value == Interpolate(a, b, Progress(cfg, r));
    InterpolateStep(a, b, Progress(cfg, s), cfg.animationSteps as real);
  }

  /** Moving the fraction on by `1/m` moves the interpolated point by `1/m` of the segment. */
  lemma InterpolateStep(a: RoutePoint, b: RoutePoint, t: real, m: real)
    requires m > 0.0
    ensures Interpolate(a, b, t + 1.0 / m).latitude - Interpolate(a, b, t).latitude == (b.latitude - a.latitude) / m
    ensures Interpolate(a, b, t + 1.0 / m).longitude - Interpolate(a, b, t).longitude == (b.longitude - a.longitude) / m
  {
    var d := 1.0 / m;
    assert (b.latitude - a.latitude) * d == (b.latitude - a.latitude) / m;
    assert (b.longitude - a.longitude) * d == (b.longitude - a.longitude) / m;
  }

  /**
   * On a route of at least two points the rebuilt trail has `index + 2`
   * entries: the route's points up to the index, then the vehicle itself.
   */
  lemma TraveledPathShape(cfg: Config, s: Sim, route: seq<RoutePoint>)
    requires ValidConfig(cfg) && |route| >= 2 && Inv(cfg, s, route)
    ensures var path := TraveledPath(cfg, s, route);
      |path| == s.index + 2 &&
      (forall k :: 0 <= k <= s.index ==> path[k] == PathPointOf(route[k])) &&
      path[s.index + 1] == PathPointAt(CurrentPosition(cfg, s, route).value)
  {
  }

  /**
   * After every accepted frame on a route of at least two points the engine's
   * trail has `index + 2` entries: the route's points up to the index, then the
   * vehicle itself.
   */
  lemma TrailAfterFrame(cfg: Config, s: Sim, route: seq<RoutePoint>, now: real, distance: (RoutePoint, RoutePoint) -> real)
    requires ValidConfig(cfg) && |route| >= 2 && Inv(cfg, s, route) && Accepted(cfg, s, now)
    ensures var r := Tick(cfg, s, route, now, distance);
      |r.path| == r.index + 2 &&
      (forall k :: 0 <= k <= r.index ==> r.path[k] == PathPointOf(route[k])) &&
      r.path[r.index + 1] == PathPointAt(CurrentPosition(cfg, r, route).value)
  {
    TickPreservesInv(cfg, s, route, now, distance);
    TraveledPathShape(cfg, Tick(cfg, s, route, now, distance), route);
  }

  /** An empty route: no position, 0 percent, the trail left alone, and no frame moves the index. */
  lemma EmptyRoute(cfg: Config, s: Sim, now: real, distance: (RoutePoint, RoutePoint) -> real)
    requires ValidConfig(cfg) && SliderSpeed(s.playbackSpeed)
    ensures CurrentPosition(cfg, s, []) == None
    ensures Percent(cfg, s, []) == Some(0.0)
    ensures TraveledPath(cfg, s, []) == s.path
    ensures Play(s, []).index == 0
    ensures Tick(cfg, Play(s, []), [], now, distance).index == 0
  {
  }

  /**
   * The throttle threshold is the interval divided by the playback speed: at
   * speed 1 it is the interval itself, and a faster speed accepts every frame a
   * slower one accepts.
   */
  lemma ThrottleScalesWithSpeed(cfg: Config, s: Sim, now: real, faster: real)
    requires cfg.updateInterval >= 0.0 && 0.0 < s.playbackSpeed <= faster
    ensures s.playbackSpeed == 1.0 ==> (Accepted(cfg, s, now) <==> now - Baseline(s, now) >= cfg.updateInterval)
    ensures Accepted(cfg, s, now) ==> Accepted(cfg, s.(playbackSpeed := faster), now)
  {
    DivisorMonotone(cfg.updateInterval, s.playbackSpeed, faster);
  }

  /** Dividing a non-negative amount by a larger divisor gives no more. */
  lemma DivisorMonotone(x: real, d: real, e: real)
    requires x >= 0.0 && 0.0 < d <= e
    ensures x / e <= x / d
  {
    assert x / d - x / e == x * (e - d) / (d * e);
    assert x * (e - d) >= 0.0;
  }

  lemma QuotientMonotone(a: real, b: real, d: real)
    requires a <= b && d > 0.0
    ensures a / d <= b / d
  {
    assert b / d - a / d == (b - a) / d;
  }

  lemma QuotientStrict(a: real, b: real, d: real)
    requires a < b && d > 0.0
    ensures a / d < b / d
  {
    assert b / d - a / d == (b - a) / d;
  }

  /**
   * Percent rises with every accepted frame except the route's last one, which
   * drops it back to `(length-2)/(length-1) · 100`: a finished run never shows 100.
   */
  lemma PercentAlongRun(cfg: Config, s: Sim, route: seq<RoutePoint>, distance: (RoutePoint, RoutePoint) -> real)
    requires ValidConfig(cfg) && |route| >= 2 && Inv(cfg, s, route)
    ensures var r := Accept(cfg, s, route, distance);
      var last := s.index == |route| - 2 && s.step == cfg.animationSteps - 1;
      (!last ==> Percent(cfg, r, route).value > Percent(cfg, s, route).value) &&
      (last ==> Percent(cfg, r, route).value <= Percent(cfg, s, route).value &&
                Percent(cfg, r, route).value == (|route| - 2) as real / (|route| - 1) as real * 100.0)
  {
    var r := Accept(cfg, s, route, distance);
    var m := cfg.animationSteps as real;
    var n1 := (|route| - 1) as real;
    var before := s.index as real + Progress(cfg, s);
    var after := r.index as real + Progress(cfg, r);
    FractionBelowOne(s.step as real, m);
    if s.step + 1 < cfg.animationSteps {
      QuotientStrict(s.step as real, (s.step + 1) as real, m);
      QuotientStrict(before, after, n1);
    } else if s.index + 1 < |route| - 1 {
      QuotientStrict(before, after, n1);
    } else {
      QuotientMonotone(after, before, n1);
    }
  }
}

=== FILE: route_generator.dfy ===
/**
 * The route generator: `numPoints` points on the straight line from `start`
 * to `end`, timestamped 5 seconds apart, with a small sideways bend applied to
 * the latitude only.
 */
module RouteGenerator {
  import opened VehicleUtils

  /** A location picked on the map. */
  datatype LatLng = LatLng(lat: real, lng: real)

  /** Milliseconds between the timestamps of consecutive generated points. */
  const SpacingMs: int := 5000

  /** Largest magnitude of the latitude bend, `0.002 · sin(progress · π)`. */
  const CurveAmplitude: real := 0.002

  /**
   * The bend is `Math.sin(progress · Math.PI) · 0.002`; the model takes it as a
   * parameter and only relies on its bound and on its exact zero at progress 0.
   */
  ghost predicate BoundedCurve(curve: real -> real) {
    (forall x :: -CurveAmplitude <= curve(x) <= CurveAmplitude) && curve(0.0) == 0.0
  }

  /** Fraction of the way from start to end at point `i` of `n`. */
  function Fraction(i: nat, n: nat): real
    requires n >= 2
  {
    i as real / (n - 1) as real
  }

  /** Latitude and longitude of the straight line at fraction `f`. */
  function LineLatitude(start: LatLng, end: LatLng, f: real): real {
    start.lat + (end.lat - start.lat) * f
  }

  function LineLongitude(start: LatLng, end: LatLng, f: real): real {
    start.lng + (end.lng - start.lng) * f
  }

  function PointAt(start: LatLng, end: LatLng, n: nat, startTime: int, curve: real -> real, i: nat): RoutePoint
    requires n >= 2
  {
    var f := Fraction(i, n);
    RoutePoint(LineLatitude(start, end, f) + curve(f), LineLongitude(start, end, f), startTime + i * SpacingMs)
  }

  /**
   * `generateRouteBetweenPoints(start, end, numPoints)` with the clock reading
   * `startTime` (ms). A single point would divide by zero, so `numPoints` is 0
   * or at least 2.
   */
  function GenerateRoute(start: LatLng, end: LatLng, numPoints: nat, startTime: int, curve: real -> real): (route: seq<RoutePoint>)
    requires numPoints != 1
    ensures |route| == numPoints
  {
    seq(numPoints, i requires 0 <= i < numPoints => PointAt(start, end, numPoints, startTime, curve, i))
  }

  /**
   * Point i is timestamped `startTime + 5000·i`; consecutive points are exactly
   * 5 s apart, so the speed between them never hits the equal-timestamp guard.
   */
  lemma GeneratedTimestamps(start: LatLng, end: LatLng, n: nat, startTime: int, curve: real -> real)
    requires n != 1
    ensures var route := GenerateRoute(start, end, n, startTime, curve);
      (forall i :: 0 <= i < n ==> route[i].time == startTime + 5000 * i) &&
      (forall i :: 0 <= i < n - 1 ==> route[i + 1].time - route[i].time == 5000) &&
      (forall i, j :: 0 <= i < j < n ==> route[i].time < route[j].time)
  {
  }

  /** On a generated route the speed of every segment is the rounded exact speed over 5 s. */
  lemma GeneratedSpeedsDefined(start: LatLng, end: LatLng, n: nat, startTime: int, curve: real -> real, i: nat, distanceMetres: real)
    requires n >= 2 && i < n - 1
    ensures var route := GenerateRoute(start, end, n, startTime, curve);
      CalculateSpeed(route[i], route[i + 1], distanceMetres) == RoundTenth(distanceMetres / 5.0 * 3.6)
  {
    var route := GenerateRoute(start, end, n, startTime, curve);
    assert SecondsBetween(route[i], route[i + 1]) == 5.0;
  }

  /** The first point is exactly the chosen start location. */
  lemma GeneratedStart(start: LatLng, end: LatLng, n: nat, startTime: int, curve: real -> real)
    requires n >= 2 && BoundedCurve(curve)
    ensures var route := GenerateRoute(start, end, n, startTime, curve);
      route[0] == RoutePoint(start.lat, start.lng, startTime)
  {
    assert Fraction(0, n) == 0.0;
  }

  lemma ScaleFraction(x: real, a: real, b: real)
    requires b > 0.0
    ensures x * (a / b) == (x / b) * a
  {
    var q := a / b;
    var w := x / b;
    assert q * b == a;
    assert w * b == x;
    assert x * q * b == x * a;
    assert w * a * b == x * a;
  }

  /** The longitude of point `i` is `i` equal strides from the start. */
  lemma LongitudeAt(start: LatLng, end: LatLng, n: nat, startTime: int, curve: real -> real, i: nat)
    requires n >= 2 && i < n
    ensures GenerateRoute(start, end, n, startTime, curve)[i].longitude
         == start.lng + (end.lng - start.lng) / (n - 1) as real * i as real
  {
    ScaleFraction(end.lng - start.lng, i as real, (n - 1) as real);
  }

  /** Consecutive longitudes differ by one stride. */
  lemma LongitudeStep(start: LatLng, end: LatLng, n: nat, startTime: int, curve: real -> real, i: nat)
    requires n >= 2 && i < n - 1
    ensures var route := GenerateRoute(start, end, n, startTime, curve);
      route[i + 1].longitude - route[i].longitude == (end.lng - start.lng) / (n - 1) as real
  {
    var stride := (end.lng - start.lng) / (n - 1) as real;
    LongitudeAt(start, end, n, startTime, curve, i);
    LongitudeAt(start, end, n, startTime, curve, i + 1);
    assert stride * (i + 1) as real == stride * i as real + stride;
  }

  /** The last longitude is exactly the end longitude. */
  lemma LastLongitude(start: LatLng, end: LatLng, n: nat, startTime: int, curve: real -> real)
    requires n >= 2
    ensures GenerateRoute(start, end, n, startTime, curve)[n - 1].longitude == end.lng
  {
    assert Fraction(n - 1, n) == 1.0;
    assert PointAt(start, end, n, startTime, curve, n - 1).longitude == LineLongitude(start, end, 1.0);
  }

  /**
   * Longitudes follow the straight line: they advance by the same amount at
   * every point and the last one is exactly the end longitude.
   */
  lemma GeneratedLongitudes(start: LatLng, end: LatLng, n: nat, startTime: int, curve: real -> real)
    requires n >= 2
    ensures var route := GenerateRoute(start, end, n, startTime, curve);
      var stride := (end.lng - start.lng) / (n - 1) as real;
      (forall i :: 0 <= i < n ==> route[i].longitude == start.lng + stride * i as real) &&
      (forall i :: 0 <= i < n - 1 ==> route[i + 1].longitude - route[i].longitude == stride) &&
      route[n - 1].longitude == end.lng
  {
    forall i | 0 <= i < n {
      LongitudeAt(start, end, n, startTime, curve, i);
    }
    forall i | 0 <= i < n - 1 {
      LongitudeStep(start, end, n, startTime, curve, i);
    }
    LastLongitude(start, end, n, startTime, curve);
  }

  /** Only latitude is bent, and by at most 0.002 degrees from the straight line. */
  lemma GeneratedLatitudes(start: LatLng, end: LatLng, n: nat, startTime: int, curve: real -> real)
    requires n >= 2 && BoundedCurve(curve)
    ensures var route := GenerateRoute(start, end, n, startTime, curve);
      forall i :: 0 <= i < n ==>
        Abs(route[i].latitude - LineLatitude(start, end, Fraction(i, n))) <= CurveAmplitude
  {
  }
}

=== FILE: simulation.dfy ===
/**
 * The playback engine of `useVehicleSimulation`, as a pure state machine.
 * Animation-frame scheduling is replaced by an explicit `Tick` that receives
 * the frame's timestamp; the controls `Play`, `Pause`, `Reset` and
 * `SetPlaybackSpeed` are state transformers; `CurrentPosition`,
 * `TraveledPath` and `Percent` are the values the hook derives on each render.
 */
module Simulation {
  import opened Wrappers
  import opened VehicleUtils

  /** Hook parameters: throttle interval in ms and subdivisions per segment (defaults 50 and 20). */
  datatype Config = Config(updateInterval: real, animationSteps: nat)

  const DefaultConfig: Config := Config(50.0, 20)

  predicate ValidConfig(cfg: Config) {
    cfg.animationSteps >= 1
  }

  /** The values the playback-speed slider offers: 0.5 to 4 in steps of 0.5. */
  predicate SliderSpeed(x: real) {
    0.5 <= x <= 4.0 && (2.0 * x).Floor as real == 2.0 * x
  }

  /** One entry of the traveled path, in the `[longitude, latitude]` order the map expects. */
  datatype PathPoint = PathPoint(longitude: real, latitude: real)

  /**
   * Engine state. `step` counts the frames taken on the current segment, so
   * `animationProgress` is `step / animationSteps`. `lastUpdate` is the
   * timestamp of the last accepted frame, with 0 meaning "none yet".
   */
  datatype Sim = Sim(
    index: nat,
    step: nat,
    playing: bool,
    speed: real,
    elapsed: nat,
    playbackSpeed: real,
    lastUpdate: real,
    path: seq<PathPoint>)

  /** The state the hook starts in. */
  const Initial: Sim := Sim(0, 0, false, 0.0, 0, 1.0, 0.0, [])

  /** Index of the last segment's first point; routes shorter than 2 have no segment and use 0. */
  function LastStart(route: seq<RoutePoint>): nat {
    if |route| >= 2 then |route| - 2 else 0
  }

  /** What every reachable state satisfies: the index never passes the last segment, progress is below 1 and the playback speed is a slider value. */
  predicate Inv(cfg: Config, s: Sim, route: seq<RoutePoint>) {
    s.index <= LastStart(route) && s.step < cfg.animationSteps && SliderSpeed(s.playbackSpeed)
  }

  /** A proper fraction of a positive denominator lies in [0, 1). */
  lemma FractionBelowOne(x: real, d: real)
    requires 0.0 <= x < d
    ensures 0.0 <= x / d < 1.0
  {
    var q := x / d;
    assert q * d == x;
  }

  function Progress(cfg: Config, s: Sim): real
    requires ValidConfig(cfg)
  {
    s.step as real / cfg.animationSteps as real
  }

  /** The fields an animation frame may change, that is, everything except `lastUpdate`. */
  predicate SameSimulation(a: Sim, b: Sim) {
    a.(lastUpdate := 0.0) == b.(lastUpdate := 0.0)
  }

  function PathPointOf(p: RoutePoint): PathPoint {
    PathPoint(p.longitude, p.latitude)
  }

  function PathPointAt(q: Position): PathPoint {
    PathPoint(q.longitude, q.latitude)
  }

  /**
   * `currentPosition`: interpolated on the current segment while one follows,
   * the point itself at the last index, and null past the end of the route.
   */
  function CurrentPosition(cfg: Config, s: Sim, route: seq<RoutePoint>): (r: Option<Position>)
    requires ValidConfig(cfg)
    ensures r.None? <==> s.index >= |route|
    ensures s.index == |route| - 1 ==> r == Some(PositionOf(route[s.index]))
  {
    if |route| > 0 && s.index < |route| - 1 then
      Some(Interpolate(route[s.index], route[s.index + 1], Progress(cfg, s)))
    else if s.index < |route| then
      Some(PositionOf(route[s.index]))
    else
      None
  }

  /**
   * The traveled path rebuilt from the state: the route's points up to the
   * current index, then the current position while a segment follows. An empty
   * route leaves the old path in place.
   */
  function TraveledPath(cfg: Config, s: Sim, route: seq<RoutePoint>): (r: seq<PathPoint>)
    requires ValidConfig(cfg)
    ensures |route| == 0 ==> r == s.path
    ensures |route| > 0 ==>
      var prefix := if s.index + 1 <= |route| then s.index + 1 else |route|;
      |r| == prefix + (if s.index < |route| - 1 then 1 else 0) &&
      (forall k :: 0 <= k < prefix ==> r[k] == PathPointOf(route[k]))
  {
    if |route| == 0 then s.path
    else
      var prefix := route[..if s.index + 1 <= |route| then s.index + 1 else |route|];
      var vertices := seq(|prefix|, k requires 0 <= k < |prefix| => PathPointOf(prefix[k]));
      var pos := CurrentPosition(cfg, s, route);
      if pos.Some? && s.index < |route| - 1 then vertices + [PathPointAt(pos.value)] else vertices
  }

  /** The traveled-path effect, applied after every accepted frame: only the trail is replaced. */
  function Rebuild(cfg: Config, s: Sim, route: seq<RoutePoint>): (r: Sim)
    requires ValidConfig(cfg)
    ensures r.path == TraveledPath(cfg, s, route)
    ensures r.(path := s.path) == s
  {
    s.(path := TraveledPath(cfg, s, route))
  }

  /**
   * The state update of an accepted frame: one more step on the segment or,
   * when progress would reach 1, a wrap to the next segment with the speed of
   * the one just completed. On the last segment the wrap stops playback and
   * keeps the index. Elapsed time counts every wrap, the last one included.
   */
  function Advance(cfg: Config, s: Sim, route: seq<RoutePoint>, distance: (RoutePoint, RoutePoint) -> real): Sim
    requires ValidConfig(cfg)
  {
    if s.step + 1 < cfg.animationSteps then
      s.(step := s.step + 1)
    else if s.index + 1 < |route| - 1 then
      var from, to := route[s.index], route[s.index + 1];
      s.(index := s.index + 1, step := 0, elapsed := s.elapsed + 1,
         speed := CalculateSpeed(from, to, distance(from, to)))
    else
      s.(step := 0, elapsed := s.elapsed + 1, playing := false)
  }

  /** An accepted frame, followed by the traveled-path rebuild it triggers. */
  function Accept(cfg: Config, s: Sim, route: seq<RoutePoint>, distance: (RoutePoint, RoutePoint) -> real): Sim
    requires ValidConfig(cfg)
  {
    Rebuild(cfg, Advance(cfg, s, route, distance), route)
  }

  /** The timestamp a frame is measured against: the last accepted one, or the frame's own when there is none. */
  function Baseline(s: Sim, now: real): real {
    if s.lastUpdate == 0.0 then now else s.lastUpdate
  }

  /** The throttle: a frame is accepted when at least `updateInterval / playbackSpeed` ms have passed. */
  predicate Accepted(cfg: Config, s: Sim, now: real)
    requires s.playbackSpeed > 0.0
  {
    now - Baseline(s, now) >= cfg.updateInterval / s.playbackSpeed
  }

  /**
   * `animate(timestamp)`. A rejected frame changes no simulation field and only
   * records the baseline; an accepted one records `now` and advances. The
   * first frame after `Play` measures against itself, so with a positive
   * interval it never advances.
   */
  function Tick(cfg: Config, s: Sim, route: seq<RoutePoint>, now: real, distance: (RoutePoint, RoutePoint) -> real): (r: Sim)
    requires ValidConfig(cfg) && SliderSpeed(s.playbackSpeed)
    ensures !Accepted(cfg, s, now) ==> SameSimulation(r, s)
    ensures !Accepted(cfg, s, now) && s.lastUpdate != 0.0 ==> r == s
    ensures Accepted(cfg, s, now) && |route| > 0 ==> r.path == TraveledPath(cfg, r, route)
    ensures Accepted(cfg, s, now) ==> r.lastUpdate == now
    ensures s.lastUpdate == 0.0 && cfg.updateInterval > 0.0 ==> SameSimulation(r, s) && r.lastUpdate == now
    ensures r.playbackSpeed == s.playbackSpeed
  {
    if Accepted(cfg, s, now) then Accept(cfg, s.(lastUpdate := now), route, distance)
    else s.(lastUpdate := Baseline(s, now))
  }

  /**
   * `play()`: restarts from the first point only when the index is at or past
   * the route's last index; always clears the throttle baseline and starts.
   */
  function Play(s: Sim, route: seq<RoutePoint>): (r: Sim)
    ensures r.playing && r.lastUpdate == 0.0
    ensures r.speed == s.speed && r.path == s.path && r.playbackSpeed == s.playbackSpeed
    ensures s.index >= |route| - 1 ==> r.index == 0 && r.step == 0 && r.elapsed == 0
    ensures s.index < |route| - 1 ==> r.index == s.index && r.step == s.step && r.elapsed == s.elapsed
  {
    var restarted := if s.index >= |route| - 1 then s.(index := 0, step := 0, elapsed := 0) else s;
    restarted.(lastUpdate := 0.0, playing := true)
  }

  /** `pause()`: stops playback and touches nothing else. */
  function Pause(s: Sim): (r: Sim)
    ensures !r.playing
    ensures r.(playing := s.playing) == s
  {
    s.(playing := false)
  }

  /** `reset()`: back to the start of the route with a cleared path; the playback speed survives. */
  function Reset(s: Sim): (r: Sim)
    ensures !r.playing && r.index == 0 && r.step == 0 && r.elapsed == 0
    ensures r.speed == 0.0 && r.path == []
    ensures r.playbackSpeed == s.playbackSpeed && r.lastUpdate == s.lastUpdate
  {
    s.(playing := false, index := 0, step := 0, elapsed := 0, speed := 0.0, path := [])
  }

  /** `setPlaybackSpeed(x)`: the hook stores the value without checking it. */
  function SetPlaybackSpeed(s: Sim, x: real): (r: Sim)
    ensures r.playbackSpeed == x
    ensures r.(playbackSpeed := s.playbackSpeed) == s
  {
    s.(playbackSpeed := x)
  }

  /** In a state within the route's segments the percentage formula stays in [0, 100). */
  lemma PercentBelowHundred(cfg: Config, s: Sim, route: seq<RoutePoint>)
    requires ValidConfig(cfg) && |route| >= 2
    ensures Inv(cfg, s, route) ==>
      0.0 <= (s.index as real + Progress(cfg, s)) / (|route| - 1) as real * 100.0 < 100.0
  {
    if Inv(cfg, s, route) {
      FractionBelowOne(s.step as real, cfg.animationSteps as real);
      FractionBelowOne(s.index as real + Progress(cfg, s), (|route| - 1) as real);
    }
  }

  /**
   * `progress`: `(index + animationProgress) / (length - 1) · 100`, and 0 for an
   * empty route. A one-point route divides by zero (not a finite number): None.
   */
  function Percent(cfg: Config, s: Sim, route: seq<RoutePoint>): (r: Option<real>)
    requires ValidConfig(cfg)
    ensures |route| == 0 ==> r == Some(0.0)
    ensures r.None? <==> |route| == 1
    ensures |route| >= 2 && Inv(cfg, s, route) ==> 0.0 <= r.value < 100.0
  {
    if |route| == 0 then Some(0.0)
    else if |route| == 1 then None
    else
      PercentBelowHundred(cfg, s, route);
      Some((s.index as real + Progress(cfg, s)) / (|route| - 1) as real * 100.0)
  }
}

=== FILE: vehicle_utils.dfy ===
/**
 * Geometry and time helpers of the vehicle tracker: linear interpolation
 * between two route points, speed between two timestamped points, and the
 * display formats for coordinates and elapsed time.
 */
module VehicleUtils {
  import opened Wrappers
  import Decimal

  /**
   * A point of a route. `time` is the instant its ISO-8601 timestamp denotes,
   * in whole milliseconds since the epoch (what `new Date(ts).getTime()` reads).
   */
  datatype RoutePoint = RoutePoint(latitude: real, longitude: real, time: int)

  /** A bare latitude/longitude pair, as `interpolatePosition` returns it. */
  datatype Position = Position(latitude: real, longitude: real)

  function PositionOf(p: RoutePoint): Position {
    Position(p.latitude, p.longitude)
  }

  /** `x` lies on the closed interval spanned by `a` and `b`, in either order. */
  predicate Between(a: real, x: real, b: real) {
    (a <= x <= b) || (b <= x <= a)
  }

  /**
   * Linear interpolation, axis by axis, with no spherical correction.
   * The result is the weighted mean `(1 - t)·p1 + t·p2` of the two points.
   */
  function Interpolate(p1: RoutePoint, p2: RoutePoint, progress: real): (r: Position)
    ensures r.latitude == (1.0 - progress) * p1.latitude + progress * p2.latitude
    ensures r.longitude == (1.0 - progress) * p1.longitude + progress * p2.longitude
  {
    Position(p1.latitude + (p2.latitude - p1.latitude) * progress,
             p1.longitude + (p2.longitude - p1.longitude) * progress)
  }

  /** Interpolation is exact at both ends of a segment. */
  lemma InterpolateEnds(p1: RoutePoint, p2: RoutePoint)
    ensures Interpolate(p1, p2, 0.0) == PositionOf(p1)
    ensures Interpolate(p1, p2, 1.0) == PositionOf(p2)
  {
  }

  lemma ProductNonNegative(x: real, y: real)
    requires x >= 0.0 && y >= 0.0
    ensures x * y >= 0.0
  {
  }

  lemma BetweenOnAxis(a: real, b: real, t: real)
    requires 0.0 <= t <= 1.0
    ensures Between(a, a + (b - a) * t, b)
  {
    var d := if a <= b then b - a else a - b;
    ProductNonNegative(d, t);
    ProductNonNegative(d, 1.0 - t);
    assert d - d * t == d * (1.0 - t);
  }

  /** For progress in [0, 1] each coordinate stays between the two endpoints' coordinates. */
  lemma InterpolateBetween(p1: RoutePoint, p2: RoutePoint, progress: real)
    requires 0.0 <= progress <= 1.0
    ensures Between(p1.latitude, Interpolate(p1, p2, progress).latitude, p2.latitude)
    ensures Between(p1.longitude, Interpolate(p1, p2, progress).longitude, p2.longitude)
  {
    BetweenOnAxis(p1.latitude, p2.latitude, progress);
    BetweenOnAxis(p1.longitude, p2.longitude, progress);
  }

  /** `Math.round(y)`: the nearest integer, halves rounded up. */
  function Round(y: real): (r: int)
    ensures y - 0.5 < r as real <= y + 0.5
  {
    (y + 0.5).Floor
  }

  /** `Math.round(x * 10) / 10`: rounding to one decimal place. */
  function RoundTenth(x: real): (r: real)
    ensures x - 0.05 < r <= x + 0.05
    ensures (r * 10.0).Floor as real == r * 10.0
  {
    Round(x * 10.0) as real / 10.0
  }

  /** Seconds between the two points' timestamps (negative when `p2` is earlier). */
  function SecondsBetween(p1: RoutePoint, p2: RoutePoint): real {
    (p2.time - p1.time) as real / 1000.0
  }

  /**
   * Speed in km/h from `p1` to `p2`, given the great-circle distance between
   * them in metres (the haversine formula is kept outside the model).
   * Equal timestamps give 0 whatever the distance; otherwise the result is the
   * exact speed rounded to one decimal.
   */
  function CalculateSpeed(p1: RoutePoint, p2: RoutePoint, distanceMetres: real): (r: real)
    ensures p1.time == p2.time ==> r == 0.0
    ensures p1.time != p2.time ==>
      var exact := distanceMetres / SecondsBetween(p1, p2) * 3.6;
      exact - 0.05 < r <= exact + 0.05
  {
    var timeDiff := SecondsBetween(p1, p2);
    if timeDiff == 0.0 then 0.0
    else RoundTenth(distanceMetres / timeDiff * 3.6)
  }

  datatype Axis = Lat | Lng

  /** A formatted coordinate: its magnitude (printed with six decimals) and hemisphere letter. */
  datatype CoordinateText = CoordinateText(magnitude: real, direction: char)

  function Abs(x: real): real {
    if x < 0.0 then -x else x
  }

  /** The hemisphere letter: 'N'/'S' for latitudes, 'E'/'W' for longitudes; zero counts as N and E. */
  function Direction(value: real, axis: Axis): (c: char)
    ensures axis == Lat ==> (c == 'N' <==> value >= 0.0) && (c == 'S' <==> value < 0.0)
    ensures axis == Lng ==> (c == 'E' <==> value >= 0.0) && (c == 'W' <==> value < 0.0)
  {
    match axis
    case Lat => if value >= 0.0 then 'N' else 'S'
    case Lng => if value >= 0.0 then 'E' else 'W'
  }

  /** `formatCoordinate` without the six-decimal rendering of the magnitude. */
  function FormatCoordinate(value: real, axis: Axis): (t: CoordinateText)
    ensures t.magnitude >= 0.0
    ensures t.direction == Direction(value, axis)
  {
    CoordinateText(Abs(value), Direction(value, axis))
  }

  /** How a reader recovers the signed coordinate from its text. */
  function SignedValue(t: CoordinateText): real {
    if t.direction == 'S' || t.direction == 'W' then -t.magnitude else t.magnitude
  }

  /** Magnitude and hemisphere letter together determine the coordinate. */
  lemma FormatCoordinateRoundTrip(value: real, axis: Axis)
    ensures SignedValue(FormatCoordinate(value, axis)) == value
  {
  }

  /** A number zero-padded to at least two digits. */
  function TwoDigits(n: nat): string {
    Decimal.PadStart(Decimal.Show(n), 2, '0')
  }

  lemma TwoDigitsLength(n: nat)
    ensures |TwoDigits(n)| >= 2
    ensures |TwoDigits(n)| == 2 <==> n < 100
  {
  }

  /** Minutes need at most two digits exactly below 6000 s; the seconds field always has two. */
  lemma ClockLayout(seconds: nat, mins: string, secs: string)
    requires mins == TwoDigits(seconds / 60) && secs == TwoDigits(seconds % 60)
    ensures |mins| >= 2 && (|mins| == 2 <==> seconds < 6000)
    ensures |secs| == 2
    ensures var r := mins + ":" + secs; r[|r| - 3] == ':'
    ensures |mins| > 2 ==> mins[0] != '0'
  {
    TwoDigitsLength(seconds / 60);
    TwoDigitsLength(seconds % 60);
    assert seconds / 60 < 100 <==> seconds < 6000;
  }

  /** `MM:SS` for a whole number of elapsed seconds; minutes are not capped. */
  function FormatElapsedTime(seconds: nat): (r: string)
    ensures |r| == 5 <==> seconds < 6000
    ensures |r| >= 5
    ensures r[|r| - 3] == ':'
    ensures |r| > 5 ==> r[0] != '0'
  {
    var mins, secs := TwoDigits(seconds / 60), TwoDigits(seconds % 60);
    ClockLayout(seconds, mins, secs);
    mins + ":" + secs
  }

  /** Position of the first occurrence of `c` in `s`. */
  function IndexOf(s: string, c: char): (r: Option<nat>)
    ensures r.Some? ==> r.value < |s| && s[r.value] == c
  {
    if |s| == 0 then None
    else if s[0] == c then Some(0)
    else match IndexOf(s[1..], c)
      case None => None
      case Some(k) => Some(k + 1)
  }

  /** Reads `MM:SS` back into minutes and seconds; None when it is not two numerals around a colon. */
  function ReadElapsedTime(s: string): Option<(nat, nat)> {
    match IndexOf(s, ':')
    case None => None
    case Some(k) =>
      if Decimal.AllDigits(s[..k]) && Decimal.AllDigits(s[k + 1..])
      then Some((Decimal.Parse(s[..k]), Decimal.Parse(s[k + 1..])))
      else None
  }

  lemma {:induction false} IndexOfAfterDigits(a: string, b: string)
    requires Decimal.AllDigits(a)
    ensures IndexOf(a + ":" + b, ':') == Some(|a|)
    decreases |a|
  {
    if |a| > 0 {
      assert (a + ":" + b)[1..] == a[1..] + ":" + b;
      IndexOfAfterDigits(a[1..], b);
    }
  }

  /** Two numerals around a colon read back as their two values. */
  lemma ReadClock(m: string, c: string)
    requires Decimal.AllDigits(m) && Decimal.AllDigits(c)
    ensures ReadElapsedTime(m + ":" + c) == Some((Decimal.Parse(m), Decimal.Parse(c)))
  {
    var f := m + ":" + c;
    IndexOfAfterDigits(m, c);
    assert f[..|m|] == m;
    assert f[|m| + 1..] == c;
  }

  /**
   * The formatted elapsed time reads back as minutes and seconds that give the
   * original count, with fewer than 60 seconds.
   */
  lemma FormatElapsedTimeRoundTrip(seconds: nat)
    ensures ReadElapsedTime(FormatElapsedTime(seconds)) == Some((seconds / 60, seconds % 60))
    ensures var (mins, secs) := ReadElapsedTime(FormatElapsedTime(seconds)).value;
      mins * 60 + secs == seconds && secs < 60
  {
    Decimal.ParsePadded(seconds / 60, 2);
    Decimal.ParsePadded(seconds % 60, 2);
    ReadClock(TwoDigits(seconds / 60), TwoDigits(seconds % 60));
  }
}

=== FILE: wrappers.dfy ===
/** An optional value: a `currentPosition` that is `null`, or a `progress` that is not finite. */
module Wrappers {

  datatype Option<+T> = None | Some(value: T)
}
